=== FILE: README.md ===
# aiaccel trial scheduling, modelled in Dafny

aiaccel runs many hyperparameter-optimization trials against a limited pool of
workers. It records each trial in a persistent storage, so that a run that was
interrupted can resume from a checkpoint. This project models the core of that
engine and proves properties of the model:

- **`AbstractScheduler`** (`scheduler.dfy`, `admission.dfy`, `jobs.dfy`). It
  covers the integer admission rule (`get_available_pool_size`), the gate and
  the calls to the optimizer in `search_hyperparameters`, and the job list
  (`start_job`). It also covers one tick of `run_in_main_loop`: discover the
  ready trials, poll the jobs, count the completed ones. Finally it covers
  `resume` and what `__getstate__` keeps.
- **`Study`** (`study.dfy`). It covers `get_resume_trial_id`, `resume`
  (rollback, then delete, then reposition the optimizer), the `optimize`
  loop, `execute`, `execute_and_report` and `evaluate`.
- **The collaborators these drive**, reduced to what the core observes.
  - Storage (`ledger.dfy`) is a `Ledger` value: trial states, hyperparameters,
    objective lists and error texts, each keyed by trial id. A `Storage`
    object holds the ledger and replaces it on every write.
  - The optimizer (`optimizers.dfy`) is a trial-id counter. `run_optimizer`
    registers one ready trial at that id, with the parameters that
    `sample(id)` gives.
  - The execution backend is a function `poll` from a trial id to the name of
    the state the job reports this tick.
  - The user's objective function maps a parameter set to what it returned,
    or to the traceback of what it raised.

The rules this engine is intended to follow (a clamped capacity rule, a flag
that marks the budget as used up, no removal while iterating, a resume
position, and the storage contract assumed here) differ from the code in a
few places. None of these is written down in the source itself. The model
follows the code:

- **Admission.** The intended capacity rule admits `max(0, min(workers -
  running - ready, budget - ready - running - finished))`. The code has three
  branches. When less than a whole pool of budget is left, the second branch
  admits all the budget that is left, without subtracting the ready and
  running trials from the worker count. In the third branch the result goes
  negative once more than `num_workers` trials are ready or running.
  `PoolAgainstClampedRule`, `BranchTwoCanExceedWorkers` and
  `NegativePoolWhenOverWorkers` relate the two rules.
- **The `all_parameters_generated` flag.** The intended rule sets this flag
  once the budget is used up, and keeps it set. In `AbstractScheduler`'s own
  code the branch that would set it is never reached, because a used-up
  budget already makes the pool 0, and the function has returned before. The
  flag therefore stays false in the scheduler and in every state it saves
  (`Scheduler.Valid`). A subclass may set it, and the docstring of
  `all_parameters_processed` asks algorithms with a generation limit to do
  so; see "## Left out".
- **Removing jobs.** The intended rule is never to remove terminal jobs
  while iterating the list. The code does remove them while iterating, so the
  job right after a removed one is not polled in that tick. `Sweep` models
  this.
- **Resuming the optimizer.** The intended rule resumes the optimizer at a
  position derived from the finished count. The optimizer's own `resume` is
  not part of this model. The model assumes it moves the optimizer's trial id
  to the configured resume id when that id is above 0. This assumption is
  inferred from two places. `optimize` stores the optimizer's trial id in the
  configuration right before calling `resume()` (aiaccel/study.py:97-99). The
  scheduler restores its own state from that configured id, under the same
  `> 0` test (aiaccel/scheduler/abstract_scheduler.py:174-175).
- **Deleting trial data.** The storage contract assumed here describes
  `delete_trial_data_after(c)` in two ways: as removing payloads for ids after
  `c`, and, in one example, as leaving `[c, budget)` with no hyperparameters.
  The model removes the payloads of ids strictly after `c`. The checkpoint's
  own hyperparameters stay, because the resumed run needs them.

## Model

| member | source | states |
|---|---|---|
| `Admission.AvailablePoolSize` | aiaccel/scheduler/abstract_scheduler.py:92-99 | When the budget is used up, the pool is 0. Otherwise it is at most the budget left and at most the worker count. It is non-negative whenever ready + running is at most the worker count. |
| `Admission.OptimizerCalls` | aiaccel/scheduler/abstract_scheduler.py:107-126 | A tick calls the optimizer 0 times when all parameters are processed. Otherwise it calls it `max(0, pool)` times, because a negative `range` is empty. |
| `Admission.AllParametersProcessed` | aiaccel/scheduler/abstract_scheduler.py:220-232 | The gate can close only once the optimizer has reported exhaustion and nothing is ready or running. That it never closes in this scheduler is `Scheduling.Scheduler.ProcessedGateNeverCloses`. |
| `Admission.AllParametersRegistered` | aiaccel/scheduler/abstract_scheduler.py:234-244 | When every trial of the budget has a record, the pool is 0 for any number of workers. This gate therefore never decides anything the pool test at line 108 has not decided already. |
| `Admission.GeneratedFlagBranchUnreachable` | aiaccel/scheduler/abstract_scheduler.py:107-120 | A non-zero pool implies the budget is not used up and not all registered, so the branch that sets `all_parameters_generated` cannot run. |
| `Admission.NegativePoolWhenOverWorkers` | aiaccel/scheduler/abstract_scheduler.py:98-99 | With more ready trials than workers, the third branch returns a negative pool (-1), and the tick admits nothing. |
| `Admission.AdmissionStaysWithinBudget` | aiaccel/scheduler/abstract_scheduler.py:92-126 | Ready + running + finished + the calls of one tick never exceed the trial budget. |
| `Admission.PoolAgainstClampedRule` | aiaccel/scheduler/abstract_scheduler.py:92-99 | While ready + running is within the workers, the code's pool is at least the intended clamped minimum. The two are equal when a whole pool of budget is left, or when nothing is ready or running. |
| `Admission.BranchTwoCanExceedWorkers` | aiaccel/scheduler/abstract_scheduler.py:96-97 | A concrete tick (budget 10, 5 workers, 4 ready, 2 finished) admits 4 where the intended rule admits 1, which leaves 8 trials ready against 5 workers. |
| `Jobs.Sweep` | aiaccel/scheduler/abstract_scheduler.py:147-153 | The job list after one pass of remove-while-iterating. It never grows, and it holds only jobs that were tracked before. |
| `Jobs.TrialIds` | aiaccel/scheduler/abstract_scheduler.py:63 | The list of tracked trial ids has one entry per job, in the same order, each equal to that job's trial id. |
| `Jobs.SweepStepKeep` | aiaccel/scheduler/abstract_scheduler.py:147-150 | Polling a non-terminal job at index k extends the already-visited prefix of the final list by that job. |
| `Jobs.SweepStepRemove` | aiaccel/scheduler/abstract_scheduler.py:150-153 | Removing a terminal job at index k moves the next job under the iterator's index. That job joins the final list without being polled. |
| `Jobs.SweptToKeep` | aiaccel/scheduler/abstract_scheduler.py:147-150 | With the iterator at index i, polling a job that stays moves it to i + 1. The kept prefix followed by the pass over the rest is still the pass over the original list. |
| `Jobs.SweptToRemove` | aiaccel/scheduler/abstract_scheduler.py:150-153 | With the iterator at index i, removing a terminal job and moving the iterator to i + 1 keeps that same equation over the shortened list. |
| `Jobs.SweepKeeps` | aiaccel/scheduler/abstract_scheduler.py:147-153 | One pass keeps every job whose state is not terminal. |
| `Jobs.SweepRemovesOnlyTerminal` | aiaccel/scheduler/abstract_scheduler.py:150-152 | A job that leaves the list reported a terminal state. |
| `Jobs.SweepPreservesDistinct` | aiaccel/scheduler/abstract_scheduler.py:147-153 | If trial ids were pairwise distinct before the pass, they still are after it. |
| `Jobs.SweepMakesProgress` | aiaccel/scheduler/abstract_scheduler.py:147-153 | If any tracked job is terminal, the pass removes at least one job. |
| `Jobs.SweepSkipsAfterRemoval` | aiaccel/scheduler/abstract_scheduler.py:147-153 | Two terminal jobs in a row: the first is removed and the second is left in the list for the next tick. |
| `Scheduling.IdRange` | aiaccel/scheduler/abstract_scheduler.py:47-49 | The log buffer's keys are exactly the ids from the start id up to, but not including, the budget. |
| `Scheduling.SnapshotExcludesJobs` | aiaccel/scheduler/abstract_scheduler.py:178-182 | `GetState`, the model of `__getstate__`, depends only on the counters and flags. Changing the jobs, the optimizer, storage or the saved snapshots leaves it as it was. |
| `Scheduling.TrackedStayTracked` | aiaccel/scheduler/abstract_scheduler.py:142-153 | Every trial id tracked after discovery whose job is not terminal is still tracked after polling. |
| `Scheduling.Scheduler.constructor` | aiaccel/scheduler/abstract_scheduler.py:31-51 | Counters are zero, there are no jobs and the flag is false. The start id is the resume id, or 0 when none is set. The buffer covers `[start, budget)`. The scheduler starts valid, given saved states that, like every state `serialize` writes, carry a false flag. |
| `Scheduling.Scheduler.ProcessedGateNeverCloses` | aiaccel/scheduler/abstract_scheduler.py:220-232 | In every valid scheduler state, `all_parameters_processed` is false for any counts. Validity holds from construction through every tick, serialization and resume, so the first gate at line 122 never stops the optimizer calls. |
| `Scheduling.Scheduler.StartJob` | aiaccel/scheduler/abstract_scheduler.py:53-72 | An untracked trial id is appended as a new job, which is returned. An id already tracked leaves the list unchanged and returns `None`. Tracked ids stay distinct. |
| `Scheduling.Scheduler.Serialize` | aiaccel/scheduler/abstract_scheduler.py:145 | Stores the scheduler's current state under the trial id, keeping it valid. That state is everything except `jobs` and `optimizer`, as `__getstate__` (lines 178-182) keeps it. |
| `Scheduling.Scheduler.SearchHyperparameters` | aiaccel/scheduler/abstract_scheduler.py:101-126 | The optimizer advances by exactly the admitted number of calls. The ledger gains exactly those ready trials at consecutive ids. When the ids are new and the counts passed in are storage's own, ready + running + finished stays within the budget. |
| `Scheduling.TickWithinBudget` | aiaccel/scheduler/abstract_scheduler.py:101-126 | One admission tick starts from storage's own counts within the budget and registers at ids above every stored trial. Afterwards ready + running + finished is still within the budget. |
| `Scheduling.Scheduler.RegisterTrials` | aiaccel/scheduler/abstract_scheduler.py:125-126 | `count` calls to `run_optimizer` advance the trial id by `max(0, count)`, because a negative `range` is empty. They register that many ready trials at consecutive ids, each with its sampled parameters. |
| `Scheduling.Scheduler.TrackReadyTrials` | aiaccel/scheduler/abstract_scheduler.py:140-145 | Existing jobs keep their place. Every ready trial ends up tracked, every new job is a ready trial, and tracked ids stay distinct. The saved snapshots gain the scheduler's state under exactly the newly tracked ids, and every other snapshot is unchanged. |
| `Scheduling.Scheduler.TrackOne` | aiaccel/scheduler/abstract_scheduler.py:143-145 | An untracked ready id is appended as a job and its snapshot is saved. An id already tracked changes nothing. Either way the id is tracked afterwards and no tracked id is lost. |
| `Scheduling.Scheduler.PollJobs` | aiaccel/scheduler/abstract_scheduler.py:147-158 | The job list becomes exactly `Sweep` of the old list, which models remove-while-iterating. The completed count grows by the number of jobs removed. Tracked ids stay distinct. |
| `Scheduling.Scheduler.RunInMainLoop` | aiaccel/scheduler/abstract_scheduler.py:128-163 | In both cases the optimizer and the ledger show exactly the admissions computed from the counts read at the start, and the configuration fields and the flag are unchanged. Once storage's finished count reaches the budget, the tick returns false and leaves the jobs, the completed count and the snapshots as they were. Otherwise the job list after discovery extends the old one by ready trials, has pairwise distinct trial ids, covers every ready trial, and has a snapshot saved under each new id. The final list is `Sweep` of that list, and the completed count grows by the number of jobs removed. The tick returns false exactly when the completed count equals the budget. Every ready trial that is not terminal is still tracked, and every job is an old one or a ready trial. |
| `Scheduling.Scheduler.DiscoverAndPoll` | aiaccel/scheduler/abstract_scheduler.py:138-163 | Discovery extends the old job list by ready trials. The extended list has pairwise distinct ids, covers every ready trial and has the scheduler's state saved under each new id. Polling then leaves `Sweep` of that list, and the completed count grows by the number of jobs removed. The result is false exactly when the completed count equals the budget. Every non-terminal ready trial stays tracked, and every job is an old one or a ready trial. |
| `Scheduling.Scheduler.Resume` | aiaccel/scheduler/abstract_scheduler.py:165-176 | With a resume id above 0 that has a saved state, the scheduler's snapshot becomes the saved one with the budget taken from the configuration. Otherwise the state is unchanged. The jobs are never touched, and the scheduler stays valid, so a restored flag is false. |
| `TrialStore.RegisterFreshCounts` | aiaccel/scheduler/abstract_scheduler.py:125-126 | Registering a new id adds exactly one ready trial and leaves the running and finished counts unchanged. |
| `TrialStore.ResumeLedgerShape` | aiaccel/study.py:83-85 | After rollback then delete at checkpoint c, the set of ids is unchanged and ids below c keep their state, parameters and objectives. Ids from c on are ready, with no objective or error, and ids after c have no parameters. |
| `TrialStore.RollbackIdempotent` | aiaccel/study.py:84 | Rolling back twice at the same checkpoint is the same as rolling back once. |
| `TrialStore.RollbackThenDeleteKeepsFinishedParams` | aiaccel/study.py:83-85 | In the code's order (rollback, then delete) no ledger along the way shows a finished trial without its parameters. |
| `TrialStore.DeleteBeforeRollbackLosesFinishedParams` | aiaccel/study.py:83-85 | In the reverse order, the intermediate ledger shows a finished trial whose parameters are gone. |
| `TrialStore.Storage.constructor` | aiaccel/study.py:48 | The storage starts from the given ledger. |
| `TrialStore.Storage.RegisterReady` | aiaccel/scheduler/abstract_scheduler.py:126 | The trial is recorded as ready with its parameters. |
| `TrialStore.Storage.SetState` | aiaccel/study.py:178-180 | Only the given trial's state changes. |
| `TrialStore.Storage.WriteResult` | aiaccel/study.py:186 | Only the given trial's objective list and error text change. |
| `TrialStore.Storage.RollbackToReady` | aiaccel/study.py:84 | The ledger becomes its rollback at the checkpoint. |
| `TrialStore.Storage.DeleteTrialDataAfterThis` | aiaccel/study.py:85 | The ledger becomes its data deletion at the checkpoint. |
| `Optimizers.RegisteredAt` | aiaccel/scheduler/abstract_scheduler.py:125-126 | n calls from position p register exactly ids `p .. p+n-1`, as ready, each with its sampled parameters. Every other record is unchanged. |
| `Optimizers.RegisteredFreshCounts` | aiaccel/scheduler/abstract_scheduler.py:125-126 | On new ids, n calls add exactly n ready trials and no running or finished one. |
| `Optimizers.Optimizer.constructor` | aiaccel/study.py:47 | Assumed behaviour, since the optimizer's constructor is not part of this model: a new optimizer starts at trial id 0, the dense numbering a fresh run uses. A resumed run enters `optimize` with a later id. |
| `Optimizers.Optimizer.RunOptimizer` | aiaccel/scheduler/abstract_scheduler.py:126 | Registers one ready trial at the current trial id and moves past it. |
| `Optimizers.Optimizer.Increment` | aiaccel/study.py:104 | The trial id moves on by one. |
| `Optimizers.Optimizer.Resume` | aiaccel/study.py:86 | Assumed behaviour, since the optimizer's `resume` is not part of this model: the trial id becomes the configured resume id when one above 0 is set, and is unchanged otherwise. |
| `Studies.ResumeTrialId` | aiaccel/study.py:68-81 | There is no resume exactly when nothing has finished or there is no candidate. It is an error exactly when the candidate or the finished count equals the budget. Otherwise the result is the candidate, with a candidate of 0 meaning `finished - 1`. |
| `Studies.ResumeTrialIdWithinBudget` | aiaccel/study.py:68-81 | With counts and candidate inside the budget, a returned resume id lies in `[0, budget)`. |
| `Studies.Execute` | aiaccel/study.py:118-146 | Returns the given parameters. The error text is empty exactly when the function returned, and it is then the function's value. When the function raised, the objective is `None` and the error is the traceback. |
| `Studies.ObjectiveList` | aiaccel/study.py:182-185 | A returned list is reported element by element. A scalar, or `None`, is reported as a list of one. |
| `Studies.Study.constructor` | aiaccel/study.py:42-48 | The study holds the given storage, optimizer, budget and resume setting. |
| `Studies.Study.Resume` | aiaccel/study.py:83-86 | The ledger is rolled back and then has its data deleted at the checkpoint, keeping "finished implies parameters" at each step. Then the optimizer repositions to the configured resume id. |
| `Studies.Study.ExecuteAndReport` | aiaccel/study.py:169-186 | A trial without parameters leaves storage unchanged. Otherwise the trial is running while the function runs and finished afterwards, whether or not the function raised. Its objective list and error text are stored and its parameters are unchanged. |
| `Studies.Study.RunNextTrial` | aiaccel/study.py:108-109 | Runs the trial at the optimizer's id and moves the id on by one. The new ledger is the old one with that trial finished, holding its sampled parameters and the objective list and error text that running the function on them gave. |
| `Studies.Study.OptimizeStep` | aiaccel/study.py:96-109 | A trial already finished is skipped: the id advances by one and the ledger is unchanged. A running trial is waited on: the id and the ledger are unchanged. Any other trial at the current id is run as `RunNextTrial` states, the id advances by one, and the id is returned. While no trial has run yet, every pass that finds the optimizer's id above 0 sets the configured resume id to that id. This includes a fresh run that has skipped a finished trial 0. A trial found running in the starting states is neither run nor passed. The walk invariant is kept. |
| `Studies.Study.OptimizeLoop` | aiaccel/study.py:94-116 | The loop leaves the walk invariant, the report and the stop state. Unless it stopped, the id has advanced once per pass of `fuel`, or it waits on a trial that was running at the start. Any resume id it set lies in the span walked. |
| `Studies.Study.OptimizeRound` | aiaccel/study.py:95-116 | One pass of the loop keeps the walk invariant, the report and the stop state. The executed list either stays the same or gains the optimizer's id. The id either advances by one, or stays on a trial that was running at the start. At a running id the pass waits: the id and the executed list are unchanged and the loop does not stop. The resume id either is unchanged or becomes the optimizer's id, when that id is above 0. |
| `Studies.StopStateRun` | aiaccel/study.py:97-116 | Running one more trial and applying the stop test keeps the stop state. The test fires once `n_trials` trials have run, counting at least one, or, without `n_trials`, once the trial run is at least budget - 1. The optimizer then stands just past that trial, and a resumed run keeps its first executed id as the resume id. |
| `Studies.ReportedRun` | aiaccel/study.py:108-110 | Running one more trial, at an id not run before, keeps every other record intact and adds that trial's parameters, objectives and error to what was reported. |
| `Studies.HpDictAfterRun` | aiaccel/study.py:211 | The record `get_hp_dict` gives for a trial that ran is its parameters, its objective list and its error text. |
| `Studies.HpDictAfterResume` | aiaccel/study.py:83-85 | After a resume at checkpoint c, a trial beyond c is reported with no parameters, result or error. |
| `Studies.WalkedSkip` | aiaccel/study.py:101-105 | Skipping a finished id keeps the walk invariant. |
| `Studies.WalkedRun` | aiaccel/study.py:108-109 | Running the id at the current position, which was neither finished nor running and is finished afterwards, keeps the walk invariant with that id appended. |
| `Studies.Study.Optimize` | aiaccel/study.py:88-116 | The executed ids increase and lie within the span the optimizer walked. Each was unfinished before and is finished now, and every id passed over was already finished. With `n_trials` set, at most `max(1, n)` trials run, and exactly that many when the loop stops by itself. Without it, the loop stops only after running a trial whose id is at least budget - 1. Every executed trial holds its sampled parameters and what running the function on them gave, and every other trial's records are unchanged. If no trial from the starting id on was running, each pass advances the id by one, so the loop either stops or advances by `fuel`. The loop stops as soon as its stop condition holds: with `n_trials` set, once `max(1, n)` trials have run, and without it, once a trial whose id is at least budget - 1 has run. When it stops, the optimizer's id is just past the last trial run. Once a trial has run, the configured resume id is the first executed id whenever that id is above 0. No executed trial was running at the start. Unless the loop stopped, the optimizer has advanced by `fuel`, or it is waiting on a trial that was running at the start. The configured resume id is unchanged, or it is an id above 0 within the span walked. |
| `Studies.Study.Evaluate` | aiaccel/study.py:202-212 | `None` exactly when storage found no best trial. Otherwise there is one record per best trial, in order, each being that trial's parameters, objectives and error. |

## Left out

- The command-line launcher (`aiaccel/cli/start.py`) and the Sobol sampler are not modelled. The sampler works in floating point; here it is the parameter function `sample`.
- Storage's database, the optimizer's internals and the job state machine are not part of this model. Their effect on the core is taken from the storage contract assumed here: register, set state, write result, rollback and delete.
- Job.main's own storage writes, backend submission and timeouts are not modelled. A job's observed state is the `poll` parameter.
- Logging, the log buffer's history (`Buffer`, `set_max_len`, `has_difference`), timestamps, `write_random_seed_to_debug_log`, `pre_process`, `post_process`, `create_model`, `stats` and `job_status` are not modelled. None of them affects the scheduling state.
- `Study.get_total_seconds`, `Study.show_result`, `Study.report`'s CSV and database layout, `Study.best_value` and `create_study` (file checks, config loading) are I/O. They are left out.
- `Studies.Study.Evaluate`: takes the answer of `storage.get_best_trial` as its input and returns the records instead of writing them to a YAML file. Ranking trials by goal is a storage query outside this model.
- `Studies.Execute`: `cast_y` is the identity, so objective values are mathematical reals rather than floats. Catching every `BaseException` is modelled as an outcome `Raised` with a non-empty traceback.
- `Studies.Study.Optimize`: runs at most `fuel` passes of the `while True` loop. A trial found running makes the original spin forever, which the fuel bound does not capture. When the loop runs out of fuel, `stopped` is false.
- `Studies.ResumeTrialId`: takes `get_first_trial_id_for_resume` and the finished count as inputs. The raised `ValueError` is an `Err` result, and its message omits the workspace path.
- `Scheduling.Scheduler.Resume`: a resume id without a saved state leaves the scheduler unchanged. The original `deserialize` is not part of this model, so whether it fails there is not captured.
- `Optimizers.Optimizer.Resume`: restoring the sampler's own state is not modelled. The source's sampler notes that it resumes its counts from the number of finished parameter files, and the optimizer's `resume` itself is not part of this model. The model only moves the trial id to the configured resume id when that id is above 0, which is an assumption.
- The scheduler's `evaluate` (aiaccel/scheduler/abstract_scheduler.py:202-218) has the same body as `Study.evaluate` apart from logging and where the goals come from: the scheduler passes its own `self.goals` (line 209), while `Study.evaluate` builds them from the configuration's goal list (aiaccel/study.py:204). Both only hand the goals to `get_best_trial`, so the operation is modelled once, as `Studies.Study.Evaluate`, with storage's answer as its input.
- `Scheduling.Scheduler.Valid`: the flag `all_parameters_generated` is false only as far as `AbstractScheduler`'s own code goes. A subclass or optimizer that sets it, as the docstring of `all_parameters_processed` (aiaccel/scheduler/abstract_scheduler.py:223-227) asks algorithms with a generation limit to do, is not modelled. For such a scheduler, `ProcessedGateNeverCloses` and the flag part of `Valid` do not apply.
- `Scheduling.Scheduler.TrackReadyTrials`: `get_ready()` order is not known, so ready trials are visited in an arbitrary order. The contract states only what holds for every order.

=== FILE: admission.dfy ===
/**
 * Admission control of the scheduler: how many new trials a tick may request,
 * from the ready, running and finished counts, the trial budget and the
 * number of workers. These are the integer-only parts of the scheduler.
 */
module Admission {

  function Max(a: int, b: int): int
  {
    if a >= b then a else b
  }

  function Min(a: int, b: int): int
  {
    if a <= b then a else b
  }

  /**
   * `get_available_pool_size`: a three-branch formula. The third branch is
   * negative when more than `numWorkers` trials are ready or running.
   */
  function AvailablePoolSize(trialNumber: int, numWorkers: int, numReady: int, numRunning: int, numFinished: int): (pool: int)
    ensures numReady + numRunning + numFinished >= trialNumber ==> pool == 0
    ensures numReady + numRunning + numFinished < trialNumber && numReady >= 0 && numRunning >= 0 ==>
      pool <= trialNumber - (numReady + numRunning + numFinished) && pool <= numWorkers
    ensures pool >= 0 <== numReady + numRunning <= numWorkers
  {
    var sumStatus := numReady + numRunning + numFinished;
    if sumStatus >= trialNumber then 0
    else if trialNumber - sumStatus < numWorkers then trialNumber - sumStatus
    else numWorkers - numRunning - numReady
  }

  /** The intended capacity rule: what is free of the worker pool, capped by the budget left, never negative. */
  function ClampedPoolSize(trialNumber: int, numWorkers: int, numReady: int, numRunning: int, numFinished: int): int
  {
    Max(0, Min(numWorkers - numRunning - numReady, trialNumber - (numReady + numRunning + numFinished)))
  }

  /**
   * `all_parameters_processed`: the optimizer has run out and nothing is ready
   * or running. It can only hold once the optimizer has reported exhaustion.
   */
  function AllParametersProcessed(allParametersGenerated: bool, numReady: int, numRunning: int): (processed: bool)
    ensures processed ==> allParametersGenerated
    ensures processed ==> numReady + numRunning == 0
  {
    numReady == 0 && numRunning == 0 && allParametersGenerated
  }

  /**
   * `all_parameters_registered`: every trial of the budget has a record. When it
   * holds, the pool is already 0 for any number of workers, so this gate never
   * decides anything that the pool test has not.
   */
  function AllParametersRegistered(trialNumber: int, numReady: int, numRunning: int, numFinished: int): (registered: bool)
    ensures registered ==> forall w :: AvailablePoolSize(trialNumber, w, numReady, numRunning, numFinished) == 0
  {
    trialNumber - numFinished - numReady - numRunning == 0
  }

  /**
   * How many times `search_hyperparameters` calls `run_optimizer`: none when the
   * pool is 0, `max(pool, 0)` (Python's `range` of a negative number is empty)
   * when neither gate predicate holds, none otherwise. The branch that would set
   * `all_parameters_generated` is absent: it needs the budget to be used up,
   * which makes the pool 0 first (see `GeneratedFlagBranchUnreachable`).
   */
  function OptimizerCalls(allParametersGenerated: bool, trialNumber: int, numWorkers: int,
                          numReady: int, numRunning: int, numFinished: int): (calls: nat)
    ensures calls == if AllParametersProcessed(allParametersGenerated, numReady, numRunning) then 0
                     else Max(0, AvailablePoolSize(trialNumber, numWorkers, numReady, numRunning, numFinished))
  {
    var pool := AvailablePoolSize(trialNumber, numWorkers, numReady, numRunning, numFinished);
    if pool == 0 then 0
    else if !AllParametersProcessed(allParametersGenerated, numReady, numRunning)
         && !AllParametersRegistered(trialNumber, numReady, numRunning, numFinished)
    then Max(0, pool)
    else 0
  }

  /** Lines 112-120 of `search_hyperparameters` cannot run: a pool other than 0 means budget is left. */
  lemma GeneratedFlagBranchUnreachable(trialNumber: int, numWorkers: int, numReady: int, numRunning: int, numFinished: int)
    requires AvailablePoolSize(trialNumber, numWorkers, numReady, numRunning, numFinished) != 0
    ensures numReady + numRunning + numFinished < trialNumber
    ensures !AllParametersRegistered(trialNumber, numReady, numRunning, numFinished)
  {
  }

  /** Branch 3 goes negative once more trials are ready or running than there are workers. */
  lemma NegativePoolWhenOverWorkers()
    ensures AvailablePoolSize(10, 2, 3, 0, 0) == -1
    ensures OptimizerCalls(false, 10, 2, 3, 0, 0) == 0
  {
  }

  /** Admitting the calls of one tick never takes ready + running + finished past the budget. */
  lemma AdmissionStaysWithinBudget(allParametersGenerated: bool, trialNumber: int, numWorkers: int,
                                   numReady: nat, numRunning: nat, numFinished: nat)
    requires numReady + numRunning + numFinished <= trialNumber
    ensures numReady + numRunning + numFinished
            + OptimizerCalls(allParametersGenerated, trialNumber, numWorkers, numReady, numRunning, numFinished)
            <= trialNumber
  {
  }

  /**
   * The code against the intended capacity rule: with ready + running within the
   * workers it never admits fewer, and it admits the same whenever at least a
   * whole pool of budget is left or nothing is ready or running.
   */
  lemma PoolAgainstClampedRule(trialNumber: int, numWorkers: int, numReady: nat, numRunning: nat, numFinished: nat)
    requires numReady + numRunning <= numWorkers
    ensures var pool := AvailablePoolSize(trialNumber, numWorkers, numReady, numRunning, numFinished);
      && pool >= ClampedPoolSize(trialNumber, numWorkers, numReady, numRunning, numFinished)
      && (trialNumber - (numReady + numRunning + numFinished) >= numWorkers || numReady + numRunning == 0 ==>
            pool == ClampedPoolSize(trialNumber, numWorkers, numReady, numRunning, numFinished))
  {
  }

  /**
   * Branch 2 does not subtract the trials already ready or running from the
   * worker count, so one tick
   * can leave more trials ready or running than there are workers, which the
   * intended capacity rule would not.
   */
  lemma BranchTwoCanExceedWorkers()
    ensures AvailablePoolSize(10, 5, 4, 0, 2) == 4
    ensures ClampedPoolSize(10, 5, 4, 0, 2) == 1
    ensures 4 + 0 + OptimizerCalls(false, 10, 5, 4, 0, 2) > 5
  {
  }
}

=== FILE: jobs.dfy ===
/**
 * The scheduler's job list. A `Job` is tracked by its trial id; how it runs is
 * the execution backend's business, so each tick only observes the name of
 * its state.
 */
module Jobs {

  /** A tracked job. Its backend handle and state machine are not modelled. */
  datatype Job = Job(trialId: int)

  /** The names `get_state_name` reports. */
  datatype JobState = Pending | Running | Success | Failure | Timeout

  /** The names in `{"success", "failure", "timeout"}`. */
  predicate IsTerminal(s: JobState)
  {
    s == Success || s == Failure || s == Timeout
  }

  /** The trial ids of the tracked jobs, in order: `[job.trial_id for job in self.jobs]`. */
  function TrialIds(jobs: seq<Job>): (ids: seq<int>)
    ensures |ids| == |jobs|
    ensures forall i :: 0 <= i < |jobs| ==> ids[i] == jobs[i].trialId
  {
    if jobs == [] then [] else [jobs[0].trialId] + TrialIds(jobs[1..])
  }

  /** No two tracked jobs share a trial id. */
  predicate DistinctIds(jobs: seq<Job>)
  {
    forall i, j :: 0 <= i < j < |jobs| ==> jobs[i].trialId != jobs[j].trialId
  }

  /**
   * The job list after one pass of `for job in self.jobs: ... self.jobs.remove(job)`.
   * Python's list iterator keeps an index, so removing the current job shifts
   * the next one under the index already passed: the job right after a removed
   * one is not visited this pass and stays.
   */
  function Sweep(jobs: seq<Job>, poll: int -> JobState): (kept: seq<Job>)
    ensures |kept| <= |jobs|
    ensures forall j :: j in kept ==> j in jobs
  {
    if jobs == [] then []
    else if !IsTerminal(poll(jobs[0].trialId)) then [jobs[0]] + Sweep(jobs[1..], poll)
    else if |jobs| == 1 then []
    else [jobs[1]] + Sweep(jobs[2..], poll)
  }

  /** One step of the Python loop over a job that stays: the visited prefix grows by one. */
  lemma SweepStepKeep(jobs: seq<Job>, k: nat, poll: int -> JobState)
    requires k < |jobs| && !IsTerminal(poll(jobs[k].trialId))
    ensures jobs[..k] + Sweep(jobs[k..], poll) == jobs[..k + 1] + Sweep(jobs[k + 1..], poll)
  {
    assert jobs[k..][1..] == jobs[k + 1..];
    assert jobs[..k + 1] == jobs[..k] + [jobs[k]];
  }

  /**
   * One step of the Python loop over a job that is removed: the job after it
   * (if any) moves under the index already passed and joins the kept prefix.
   */
  lemma SweepStepRemove(jobs: seq<Job>, k: nat, poll: int -> JobState)
    requires k < |jobs| && IsTerminal(poll(jobs[k].trialId))
    ensures var rest := jobs[..k] + jobs[k + 1..];
      var m := if k + 1 <= |rest| then k + 1 else |rest|;
      jobs[..k] + Sweep(jobs[k..], poll) == rest[..m] + Sweep(rest[m..], poll)
  {
    var rest := jobs[..k] + jobs[k + 1..];
    if k + 1 < |jobs| {
      assert jobs[k..][2..] == jobs[k + 2..];
      assert rest[..k + 1] == jobs[..k] + [jobs[k + 1]];
      assert rest[k + 1..] == jobs[k + 2..];
    } else {
      assert rest == jobs[..k];
    }
  }

  /**
   * Where the pass stands with the iterator at index `i` of the current list
   * `jobs`, having started from `orig`: what it has kept so far, followed by
   * the pass over what lies from the index on, is the pass over `orig`. The
   * index can sit one past the end after the last job is removed.
   */
  ghost predicate SweptTo(orig: seq<Job>, jobs: seq<Job>, i: int, poll: int -> JobState)
  {
    var m := if i <= |jobs| then i else |jobs|;
    0 <= i <= |jobs| + 1 && Sweep(orig, poll) == jobs[..m] + Sweep(jobs[m..], poll)
  }

  /** Polling a job that stays moves the iterator past it. */
  lemma SweptToKeep(orig: seq<Job>, jobs: seq<Job>, i: int, poll: int -> JobState)
    requires SweptTo(orig, jobs, i, poll) && i < |jobs| && !IsTerminal(poll(jobs[i].trialId))
    ensures SweptTo(orig, jobs, i + 1, poll)
  {
    SweepStepKeep(jobs, i, poll);
  }

  /** Removing a terminal job shifts the next one under the iterator, which then moves on. */
  lemma SweptToRemove(orig: seq<Job>, jobs: seq<Job>, i: int, poll: int -> JobState)
    requires SweptTo(orig, jobs, i, poll) && i < |jobs| && IsTerminal(poll(jobs[i].trialId))
    ensures SweptTo(orig, jobs[..i] + jobs[i + 1..], i + 1, poll)
  {
    SweepStepRemove(jobs, i, poll);
  }

  /** The pass keeps every job whose state is not terminal. */
  lemma {:induction false} SweepKeeps(jobs: seq<Job>, poll: int -> JobState)
    ensures forall j :: j in jobs && !IsTerminal(poll(j.trialId)) ==> j in Sweep(jobs, poll)
  {
    if jobs != [] {
      if !IsTerminal(poll(jobs[0].trialId)) {
        SweepKeeps(jobs[1..], poll);
      } else if |jobs| > 1 {
        SweepKeeps(jobs[2..], poll);
      }
    }
  }

  /** A job that disappears was in a terminal state: only finished work leaves the list. */
  lemma SweepRemovesOnlyTerminal(jobs: seq<Job>, poll: int -> JobState, j: Job)
    requires j in jobs && j !in Sweep(jobs, poll)
    ensures IsTerminal(poll(j.trialId))
  {
    SweepKeeps(jobs, poll);
  }

  /** The pass keeps the trial ids pairwise distinct. */
  lemma {:induction false} SweepPreservesDistinct(jobs: seq<Job>, poll: int -> JobState)
    requires DistinctIds(jobs)
    ensures DistinctIds(Sweep(jobs, poll))
  {
    if jobs != [] {
      if !IsTerminal(poll(jobs[0].trialId)) {
        SweepPreservesDistinct(jobs[1..], poll);
        SweepKeeps(jobs[1..], poll);
        var rest := Sweep(jobs[1..], poll);
        forall k | 0 <= k < |rest| ensures rest[k].trialId != jobs[0].trialId {
          assert rest[k] in jobs[1..];
        }
      } else if |jobs| > 1 {
        SweepPreservesDistinct(jobs[2..], poll);
        SweepKeeps(jobs[2..], poll);
        var rest := Sweep(jobs[2..], poll);
        forall k | 0 <= k < |rest| ensures rest[k].trialId != jobs[1].trialId {
          assert rest[k] in jobs[2..];
        }
      }
    }
  }

  /** If any tracked job is terminal, the pass removes at least one job. */
  lemma {:induction false} SweepMakesProgress(jobs: seq<Job>, poll: int -> JobState, k: nat)
    requires k < |jobs| && IsTerminal(poll(jobs[k].trialId))
    ensures |Sweep(jobs, poll)| < |jobs|
  {
    if !IsTerminal(poll(jobs[0].trialId)) {
      SweepMakesProgress(jobs[1..], poll, k - 1);
    } else if |jobs| > 1 {
      SweepKeeps(jobs[2..], poll);
    }
  }

  /** Two terminal jobs in a row: the first is removed and the second is skipped this pass. */
  lemma SweepSkipsAfterRemoval()
    ensures Sweep([Job(0), Job(1)], _ => Success) == [Job(1)]
  {
  }
}

=== FILE: ledger.dfy ===
/**
 * The trial ledger kept by Storage. Storage itself is a collaborator of the
 * scheduler and of Study: only the operations they call are modelled, each as
 * a function on a `Ledger` value, and the `Storage` object holds the current
 * ledger and replaces it on every write.
 */
module TrialStore {
  import opened Wrappers

  /** The persisted state of one trial. */
  datatype TrialState = Ready | Running | Finished | Failure | Timeout

  /** A stored hyperparameter value: numeric or categorical. */
  datatype HpValue = Float(x: real) | Int(n: int) | Categorical(s: string)

  type Params = map<string, HpValue>

  /** One entry of a reported objective list; `None` stands for Python's `None`. */
  type ObjectiveItem = Option<real>

  /** Every persisted record, keyed by trial id. */
  datatype Ledger = Ledger(
    states: map<int, TrialState>,
    params: map<int, Params>,
    objectives: map<int, seq<ObjectiveItem>>,
    errors: map<int, string>)

  /** The ids whose record is in state `s`. */
  function IdsIn(states: map<int, TrialState>, s: TrialState): set<int>
  {
    set id | id in states && states[id] == s
  }

  /** `get_num_running_ready_finished` counts records per state. */
  function Count(states: map<int, TrialState>, s: TrialState): nat
  {
    |IdsIn(states, s)|
  }

  /** Records trial `id` as ready with hyperparameters `p` (what registering a new parameter set writes). */
  function Register(l: Ledger, id: int, p: Params): Ledger
  {
    l.(states := l.states[id := Ready], params := l.params[id := p])
  }

  function WithState(l: Ledger, id: int, s: TrialState): Ledger
  {
    l.(states := l.states[id := s])
  }

  /** Stores the objective list and the error text of trial `id`. */
  function WithResult(l: Ledger, id: int, ys: seq<ObjectiveItem>, err: string): Ledger
  {
    l.(objectives := l.objectives[id := ys], errors := l.errors[id := err])
  }

  /** `rollback_to_ready(c)`: every trial at or after `c` is ready again, without objective or error. */
  function RolledBack(l: Ledger, c: int): Ledger
  {
    Ledger(
      map id | id in l.states :: if id >= c then Ready else l.states[id],
      l.params,
      map id | id in l.objectives && id < c :: l.objectives[id],
      map id | id in l.errors && id < c :: l.errors[id])
  }

  /** `delete_trial_data_after_this(c)`: the payloads of every trial after `c` are gone. */
  function DataDeleted(l: Ledger, c: int): Ledger
  {
    Ledger(
      l.states,
      map id | id in l.params && id <= c :: l.params[id],
      map id | id in l.objectives && id <= c :: l.objectives[id],
      map id | id in l.errors && id <= c :: l.errors[id])
  }

  /** No trial is recorded as finished without the hyperparameters it ran with. */
  predicate FinishedHaveParams(l: Ledger)
  {
    forall id :: id in l.states && l.states[id] == Finished ==> id in l.params
  }

  /** Registering a new id adds exactly one ready trial and leaves the other counts alone. */
  lemma RegisterFreshCounts(l: Ledger, id: int, p: Params)
    requires id !in l.states
    ensures Count(Register(l, id, p).states, Ready) == Count(l.states, Ready) + 1
    ensures Count(Register(l, id, p).states, Running) == Count(l.states, Running)
    ensures Count(Register(l, id, p).states, Finished) == Count(l.states, Finished)
  {
    var after := Register(l, id, p).states;
    assert IdsIn(after, Ready) == IdsIn(l.states, Ready) + {id};
    assert IdsIn(after, Running) == IdsIn(l.states, Running);
    assert IdsIn(after, Finished) == IdsIn(l.states, Finished);
  }

  /** Rollback followed by deletion: what a resume at checkpoint `c` leaves behind. */
  lemma ResumeLedgerShape(l: Ledger, c: int)
    ensures var r := DataDeleted(RolledBack(l, c), c);
      && r.states.Keys == l.states.Keys
      && (forall id :: id in l.states && id < c ==> r.states[id] == l.states[id])
      && (forall id :: id in l.states && id >= c ==> r.states[id] == Ready)
      && (forall id :: id < c ==>
            (id in r.params <==> id in l.params) && (id in l.params ==> r.params[id] == l.params[id]))
      && (forall id :: id < c ==>
            (id in r.objectives <==> id in l.objectives) && (id in l.objectives ==> r.objectives[id] == l.objectives[id]))
      && (forall id :: id > c ==> id !in r.params)
      && (forall id :: id >= c ==> id !in r.objectives && id !in r.errors)
  {
  }

  /** Rolling back twice at the same checkpoint is the same as rolling back once. */
  lemma RollbackIdempotent(l: Ledger, c: int)
    ensures RolledBack(RolledBack(l, c), c) == RolledBack(l, c)
  {
    var once := RolledBack(l, c);
    var twice := RolledBack(once, c);
    assert twice.states == once.states;
    assert twice.objectives == once.objectives;
    assert twice.errors == once.errors;
  }

  /** In the order rollback, then delete, no intermediate ledger has a finished trial without parameters. */
  lemma RollbackThenDeleteKeepsFinishedParams(l: Ledger, c: int)
    requires FinishedHaveParams(l)
    ensures FinishedHaveParams(RolledBack(l, c))
    ensures FinishedHaveParams(DataDeleted(RolledBack(l, c), c))
  {
    var r := RolledBack(l, c);
    var d := DataDeleted(r, c);
    forall id | id in d.states && d.states[id] == Finished
      ensures id in d.params
    {
      assert id < c;
    }
  }

  /** In the reverse order, the ledger between the two steps shows a finished trial whose parameters are gone. */
  lemma DeleteBeforeRollbackLosesFinishedParams()
    ensures var l := Ledger(map[0 := Finished, 1 := Finished], map[0 := map[], 1 := map[]], map[], map[]);
      && FinishedHaveParams(l)
      && !FinishedHaveParams(DataDeleted(l, 0))
      && FinishedHaveParams(RolledBack(DataDeleted(l, 0), 0))
  {
    var l := Ledger(map[0 := Finished, 1 := Finished], map[0 := map[], 1 := map[]], map[], map[]);
    var d := DataDeleted(l, 0);
    assert d.states[1] == Finished && 1 !in d.params;
  }

  /** The persisted ledger, shared by the scheduler, the optimizer and Study. */
  class Storage {
    var ledger: Ledger

    constructor (initial: Ledger)
      ensures ledger == initial
    {
      ledger := initial;
    }

    function NumReady(): nat
      reads this
    {
      Count(ledger.states, Ready)
    }

    function NumRunning(): nat
      reads this
    {
      Count(ledger.states, Running)
    }

    function NumFinished(): nat
      reads this
    {
      Count(ledger.states, Finished)
    }

    /** `state.get_any_trial_state`: `None` when the trial has no record. */
    function StateOf(id: int): Option<TrialState>
      reads this
    {
      if id in ledger.states then Some(ledger.states[id]) else None
    }

    /** `hp.get_any_trial_params_dict`: `None` when the trial has no parameters. */
    function ParamsOf(id: int): Option<Params>
      reads this
    {
      if id in ledger.params then Some(ledger.params[id]) else None
    }

    method RegisterReady(id: int, p: Params)
      modifies this
      ensures ledger == Register(old(ledger), id, p)
    {
      ledger := Register(ledger, id, p);
    }

    method SetState(id: int, s: TrialState)
      modifies this
      ensures ledger == WithState(old(ledger), id, s)
    {
      ledger := WithState(ledger, id, s);
    }

    method WriteResult(id: int, ys: seq<ObjectiveItem>, err: string)
      modifies this
      ensures ledger == WithResult(old(ledger), id, ys, err)
    {
      ledger := WithResult(ledger, id, ys, err);
    }

    method RollbackToReady(c: int)
      modifies this
      ensures ledger == RolledBack(old(ledger), c)
    {
      ledger := RolledBack(ledger, c);
    }

    method DeleteTrialDataAfterThis(c: int)
      modifies this
      ensures ledger == DataDeleted(old(ledger), c)
    {
      ledger := DataDeleted(ledger, c);
    }
  }
}

=== FILE: optimizers.dfy ===
/**
 * The optimizer as the scheduler and Study see it: a trial-id counter and an
 * operation that registers one new ready trial at that id. How parameters are
 * drawn is not modelled; `sample` gives the parameter set for each position,
 * which is how an index-based sequence generator behaves.
 */
module Optimizers {
  import opened Wrappers
  import opened TrialStore

  /** The ledger after `n` calls of `run_optimizer` starting at position `start`. */
  function Registered(l: Ledger, start: int, n: nat, sample: int -> Params): Ledger
  {
    if n == 0 then l
    else Register(Registered(l, start, n - 1, sample), start + n - 1, sample(start + n - 1))
  }

  /** The `n` calls register exactly the ids `start .. start+n-1`, as ready, with their sampled
      parameters; every other record is as it was. */
  lemma {:induction false} RegisteredAt(l: Ledger, start: int, n: nat, sample: int -> Params, id: int)
    ensures var r := Registered(l, start, n, sample);
      if start <= id < start + n then
        id in r.states && r.states[id] == Ready && id in r.params && r.params[id] == sample(id)
      else
        && (id in r.states <==> id in l.states) && (id in l.states ==> r.states[id] == l.states[id])
        && (id in r.params <==> id in l.params) && (id in l.params ==> r.params[id] == l.params[id])
    ensures Registered(l, start, n, sample).objectives == l.objectives
    ensures Registered(l, start, n, sample).errors == l.errors
  {
    if n > 0 {
      RegisteredAt(l, start, n - 1, sample, id);
    }
  }

  /** When the ids are new, `n` calls add exactly `n` ready trials and no running or finished one. */
  lemma {:induction false} RegisteredFreshCounts(l: Ledger, start: int, n: nat, sample: int -> Params)
    requires forall id :: start <= id < start + n ==> id !in l.states
    ensures var r := Registered(l, start, n, sample);
      && Count(r.states, Ready) == Count(l.states, Ready) + n
      && Count(r.states, Running) == Count(l.states, Running)
      && Count(r.states, Finished) == Count(l.states, Finished)
  {
    if n > 0 {
      RegisteredFreshCounts(l, start, n - 1, sample);
      RegisteredAt(l, start, n - 1, sample, start + n - 1);
      RegisterFreshCounts(Registered(l, start, n - 1, sample), start + n - 1, sample(start + n - 1));
    }
  }

  class Optimizer {
    /** The optimizer's trial id: where the next parameter set is registered. */
    var trialId: int
    const sample: int -> Params

    constructor (sample: int -> Params)
      ensures trialId == 0 && this.sample == sample
    {
      trialId := 0;
      this.sample := sample;
    }

    /** `run_optimizer`: register one ready trial at the current trial id and move past it. */
    method RunOptimizer(storage: Storage)
      modifies this, storage
      ensures trialId == old(trialId) + 1
      ensures storage.ledger == Register(old(storage.ledger), old(trialId), sample(old(trialId)))
    {
      storage.RegisterReady(trialId, sample(trialId));
      trialId := trialId + 1;
    }

    /** `trial_id.increment()`. */
    method Increment()
      modifies this
      ensures trialId == old(trialId) + 1
    {
      trialId := trialId + 1;
    }

    /** `resume()`: reposition to the configured resume id when one above 0 is set. */
    method Resume(resume: Option<int>)
      modifies this
      ensures trialId == if resume.Some? && resume.value > 0 then resume.value else old(trialId)
    {
      if resume.Some? && resume.value > 0 {
        trialId := resume.value;
      }
    }
  }
}

=== FILE: scheduler.dfy ===
/**
 * `AbstractScheduler`: admission control, the job list and the per-tick main
 * loop. Storage and the optimizer are the objects it drives; the execution
 * backend is seen only through `poll`, the state name each job reports this
 * tick.
 */
module Scheduling {
  import opened Wrappers
  import opened TrialStore
  import opened Optimizers
  import opened Admission
  import opened Jobs

  /** What `__getstate__` keeps of a scheduler: every counter and flag, but neither `jobs` nor `optimizer`. */
  datatype Snapshot = Snapshot(
    numWorkers: int,
    trialNumber: int,
    startTrialId: int,
    bufferKeys: set<int>,
    allParametersGenerated: bool,
    jobCompletedCount: int)

  /** The ids `lo .. hi-1`. */
  function IdRange(lo: int, hi: int): (ids: set<int>)
    ensures forall id :: id in ids <==> lo <= id < hi
    decreases hi - lo
  {
    if lo >= hi then {} else {lo} + IdRange(lo + 1, hi)
  }

  /** Set plumbing: a non-empty set has a member, so that `:|` can pick one. */
  lemma NonEmptyHasMember(s: set<int>)
    requires s != {}
    ensures exists x :: x in s
  {
    if forall x :: x !in s {
      assert false;
    }
  }

  lemma TrialIdsAppend(jobs: seq<Job>, job: Job)
    ensures TrialIds(jobs + [job]) == TrialIds(jobs) + [job.trialId]
  {
  }

  /**
   * `snaps` is `snaps0` with snapshot `st` stored under the trial id of every
   * job in `added`, and nothing else changed.
   */
  ghost predicate SnapshotsAdded(snaps0: map<int, Snapshot>, snaps: map<int, Snapshot>, added: seq<Job>, st: Snapshot)
  {
    && (forall id :: id in snaps <==> id in snaps0 || id in TrialIds(added))
    && (forall id :: id in snaps ==> snaps[id] == if id in TrialIds(added) then st else snaps0[id])
  }

  lemma SnapshotsAddedStep(snaps0: map<int, Snapshot>, snaps: map<int, Snapshot>, added: seq<Job>, st: Snapshot, id: int)
    requires SnapshotsAdded(snaps0, snaps, added, st)
    ensures SnapshotsAdded(snaps0, snaps[id := st], added + [Job(id)], st)
  {
    TrialIdsAppend(added, Job(id));
  }

  /** Ids tracked before polling stay tracked when their job is not terminal. */
  lemma TrackedStayTracked(tracked: seq<Job>, jobs: seq<Job>, poll: int -> JobState, ids: set<int>)
    requires jobs == Sweep(tracked, poll)
    requires forall id :: id in ids ==> id in TrialIds(tracked)
    ensures forall id :: id in ids && !IsTerminal(poll(id)) ==> id in TrialIds(jobs)
  {
    SweepKeeps(tracked, poll);
    forall id | id in ids && !IsTerminal(poll(id))
      ensures id in TrialIds(jobs)
    {
      var k :| 0 <= k < |tracked| && TrialIds(tracked)[k] == id;
      assert tracked[k] == Job(id);
      var m :| 0 <= m < |jobs| && jobs[m] == Job(id);
      assert TrialIds(jobs)[m] == id;
    }
  }

  /**
   * One admission tick from counts within the budget, registering at ids above
   * every stored trial, leaves the counts within the budget.
   */
  lemma TickWithinBudget(l: Ledger, start: int, sample: int -> Params, allParametersGenerated: bool,
                         trialNumber: int, numWorkers: int, numReady: nat, numRunning: nat, numFinished: nat)
    requires numReady == Count(l.states, Ready) && numRunning == Count(l.states, TrialState.Running)
    requires numFinished == Count(l.states, TrialState.Finished)
    requires numReady + numRunning + numFinished <= trialNumber
    requires forall id :: id in l.states ==> id < start
    ensures var r := Registered(l, start,
              OptimizerCalls(allParametersGenerated, trialNumber, numWorkers, numReady, numRunning, numFinished), sample);
      Count(r.states, Ready) + Count(r.states, TrialState.Running) + Count(r.states, TrialState.Finished) <= trialNumber
  {
    var calls := OptimizerCalls(allParametersGenerated, trialNumber, numWorkers, numReady, numRunning, numFinished);
    RegisteredFreshCounts(l, start, calls, sample);
    AdmissionStaysWithinBudget(allParametersGenerated, trialNumber, numWorkers, numReady, numRunning, numFinished);
  }

  /**
   * `__getstate__` keeps the counters and flags only: a change to the jobs, the
   * optimizer, storage or the saved snapshots leaves the scheduler's snapshot as it was.
   */
  twostate lemma SnapshotExcludesJobs(s: Scheduler)
    requires unchanged(s`numWorkers, s`trialNumber, s`startTrialId, s`bufferKeys,
                       s`allParametersGenerated, s`jobCompletedCount)
    ensures s.GetState() == old(s.GetState())
  {
  }

  class Scheduler {
    const storage: Storage
    const optimizer: Optimizer
    /** `config.optimize.trial_number`. */
    const configTrialNumber: int
    /** `config.resume`. */
    const configResume: Option<int>

    var numWorkers: int
    var trialNumber: int
    var jobs: seq<Job>
    var startTrialId: int
    /** The trial ids the log buffer keeps a history for. */
    var bufferKeys: set<int>
    var allParametersGenerated: bool
    var jobCompletedCount: int
    /** What `serialize(trial_id)` has written, by trial id. */
    var snapshots: map<int, Snapshot>

    /**
     * Tracked trial ids stay pairwise distinct, and `all_parameters_generated`
     * is false, both in the scheduler and in every state it has saved: no code
     * path of this class sets it, so no saved state can carry it.
     */
    ghost predicate Valid()
      reads this
    {
      && DistinctIds(jobs)
      && !allParametersGenerated
      && (forall id :: id in snapshots ==> !snapshots[id].allParametersGenerated)
    }

    /** `__init__`: counters at zero, no jobs, and a log buffer for every id from the resume id (or 0) up to the budget. */
    constructor (storage: Storage, optimizer: Optimizer, numWorkers: int, trialNumber: int,
                 resume: Option<int>, snapshots: map<int, Snapshot>)
      requires forall id :: id in snapshots ==> !snapshots[id].allParametersGenerated
      ensures this.storage == storage && this.optimizer == optimizer
      ensures this.numWorkers == numWorkers && this.trialNumber == trialNumber
      ensures configTrialNumber == trialNumber && configResume == resume
      ensures jobs == [] && jobCompletedCount == 0 && !allParametersGenerated
      ensures startTrialId == if resume.Some? then resume.value else 0
      ensures bufferKeys == IdRange(startTrialId, trialNumber)
      ensures this.snapshots == snapshots
      ensures Valid()
    {
      this.storage := storage;
      this.optimizer := optimizer;
      this.numWorkers := numWorkers;
      this.trialNumber := trialNumber;
      configTrialNumber := trialNumber;
      configResume := resume;
      jobs := [];
      var start := if resume.Some? then resume.value else 0;
      startTrialId := start;
      bufferKeys := IdRange(start, trialNumber);
      allParametersGenerated := false;
      jobCompletedCount := 0;
      this.snapshots := snapshots;
    }

    /** `__getstate__`. */
    function GetState(): Snapshot
      reads this
    {
      Snapshot(numWorkers, trialNumber, startTrialId, bufferKeys, allParametersGenerated, jobCompletedCount)
    }

    /** `start_job`: track a new job unless one with the same trial id is already tracked. */
    method StartJob(trialId: int) returns (job: Option<Job>)
      requires Valid()
      modifies this`jobs
      ensures Valid()
      ensures trialId !in old(TrialIds(jobs)) ==> job == Some(Job(trialId)) && jobs == old(jobs) + [Job(trialId)]
      ensures trialId in old(TrialIds(jobs)) ==> job == None && jobs == old(jobs)
    {
      var trialIds := TrialIds(jobs);
      if trialId !in trialIds {
        var newJob := Job(trialId);
        jobs := jobs + [newJob];
        job := Some(newJob);
      } else {
        job := None;
      }
    }

    /** `serialize(trial_id)`. */
    method Serialize(trialId: int)
      requires Valid()
      modifies this`snapshots
      ensures Valid()
      ensures snapshots == old(snapshots)[trialId := GetState()]
    {
      snapshots := snapshots[trialId := GetState()];
    }

    /**
     * `search_hyperparameters`: call `run_optimizer` once per admitted unit of
     * capacity. The flag `all_parameters_generated` is never changed, because
     * the branch that would set it cannot be reached.
     */
    method SearchHyperparameters(numReady: int, numRunning: int, numFinished: int)
      modifies optimizer, storage
      ensures var calls := OptimizerCalls(allParametersGenerated, trialNumber, numWorkers, numReady, numRunning, numFinished);
        && optimizer.trialId == old(optimizer.trialId) + calls
        && storage.ledger == Registered(old(storage.ledger), old(optimizer.trialId), calls, optimizer.sample)
      ensures
        && numReady == old(storage.NumReady()) && numRunning == old(storage.NumRunning())
        && numFinished == old(storage.NumFinished())
        && numReady + numRunning + numFinished <= trialNumber
        && (forall id :: id in old(storage.ledger.states) ==> id < old(optimizer.trialId))
        ==> storage.NumReady() + storage.NumRunning() + storage.NumFinished() <= trialNumber
    {
      ghost var ledger0, start := storage.ledger, optimizer.trialId;
      var availablePoolSize := AvailablePoolSize(trialNumber, numWorkers, numReady, numRunning, numFinished);
      if availablePoolSize != 0 {
        var sumStatus := numReady + numRunning + numFinished;
        if sumStatus >= trialNumber && !allParametersGenerated {
          // Setting the flag here is dead code: see GeneratedFlagBranchUnreachable.
          assert false;
        }
        if !AllParametersProcessed(allParametersGenerated, numReady, numRunning)
           && !AllParametersRegistered(trialNumber, numReady, numRunning, numFinished)
        {
          RegisterTrials(availablePoolSize);
        }
      }
      if && numReady == Count(ledger0.states, Ready) && numRunning == Count(ledger0.states, TrialState.Running)
         && numFinished == Count(ledger0.states, TrialState.Finished) && numReady + numRunning + numFinished <= trialNumber
         && (forall id :: id in ledger0.states ==> id < start)
      {
        TickWithinBudget(ledger0, start, optimizer.sample, allParametersGenerated, trialNumber, numWorkers,
                         numReady, numRunning, numFinished);
      }
    }

    /** The loop of `search_hyperparameters`: `run_optimizer` `count` times. */
    method RegisterTrials(count: int)
      modifies optimizer, storage
      ensures optimizer.trialId == old(optimizer.trialId) + Max(0, count)
      ensures storage.ledger == Registered(old(storage.ledger), old(optimizer.trialId), Max(0, count), optimizer.sample)
    {
      var i := 0;
      while i < count
        invariant 0 <= i <= Max(0, count)
        invariant optimizer.trialId == old(optimizer.trialId) + i
        invariant storage.ledger == Registered(old(storage.ledger), old(optimizer.trialId), i, optimizer.sample)
      {
        optimizer.RunOptimizer(storage);
        i := i + 1;
      }
    }

    /**
     * The discovery loop of `run_in_main_loop`: start a job for every ready trial
     * not yet tracked and serialize the scheduler under its id. The snapshot is
     * the same for every such id, since starting jobs changes nothing a snapshot keeps.
     */
    method TrackReadyTrials()
      requires Valid()
      modifies this`jobs, this`snapshots
      ensures Valid()
      ensures |jobs| >= |old(jobs)| && jobs[..|old(jobs)|] == old(jobs)
      ensures forall id :: id in IdsIn(storage.ledger.states, Ready) ==> id in TrialIds(jobs)
      ensures forall k :: |old(jobs)| <= k < |jobs| ==> jobs[k].trialId in IdsIn(storage.ledger.states, Ready)
      ensures forall id :: id in snapshots <==> id in old(snapshots) || id in TrialIds(jobs[|old(jobs)|..])
      ensures forall id :: id in snapshots ==>
        snapshots[id] == if id in TrialIds(jobs[|old(jobs)|..]) then old(GetState()) else old(snapshots)[id]
    {
      var readies := IdsIn(storage.ledger.states, Ready);
      var remaining := readies;
      while remaining != {}
        invariant remaining <= readies
        invariant Valid()
        invariant |jobs| >= |old(jobs)| && jobs[..|old(jobs)|] == old(jobs)
        invariant forall id :: id in readies - remaining ==> id in TrialIds(jobs)
        invariant forall k :: |old(jobs)| <= k < |jobs| ==> jobs[k].trialId in readies
        invariant SnapshotsAdded(old(snapshots), snapshots, jobs[|old(jobs)|..], old(GetState()))
        decreases remaining
      {
        NonEmptyHasMember(remaining);
        var ready :| ready in remaining;
        TrackOne(ready, old(jobs), old(snapshots), old(GetState()));
        remaining := remaining - {ready};
      }
    }

    /** One pass of the discovery loop: start and serialize `ready` unless it is tracked already. */
    method TrackOne(ready: int, ghost jobs0: seq<Job>, ghost snaps0: map<int, Snapshot>, ghost st: Snapshot)
      requires Valid() && |jobs| >= |jobs0| && jobs[..|jobs0|] == jobs0
      requires st == GetState() && SnapshotsAdded(snaps0, snapshots, jobs[|jobs0|..], st)
      modifies this`jobs, this`snapshots
      ensures Valid() && |jobs| >= |jobs0| && jobs[..|jobs0|] == jobs0
      ensures st == GetState() && SnapshotsAdded(snaps0, snapshots, jobs[|jobs0|..], st)
      ensures ready in old(TrialIds(jobs)) ==> jobs == old(jobs)
      ensures ready !in old(TrialIds(jobs)) ==> jobs == old(jobs) + [Job(ready)]
      ensures ready in TrialIds(jobs)
      ensures forall id :: id in old(TrialIds(jobs)) ==> id in TrialIds(jobs)
    {
      if ready !in TrialIds(jobs) {
        ghost var before := jobs;
        TrialIdsAppend(jobs, Job(ready));
        var _ := StartJob(ready);
        assert jobs[|jobs0|..] == before[|jobs0|..] + [Job(ready)];
        assert jobs[..|jobs0|] == before[..|jobs0|];
        SnapshotsAddedStep(snaps0, snapshots, before[|jobs0|..], st, ready);
        Serialize(ready);
      }
    }

    /**
     * The job loop of `run_in_main_loop`: poll every job, drop the terminal
     * ones and count them. Removing the current job while iterating is kept:
     * the job after a removed one is skipped this tick.
     */
    method PollJobs(poll: int -> JobState)
      requires Valid()
      modifies this`jobs, this`jobCompletedCount
      ensures Valid()
      ensures jobs == Sweep(old(jobs), poll)
      ensures jobCompletedCount == old(jobCompletedCount) + (|old(jobs)| - |jobs|)
    {
      var i := 0;
      while i < |jobs|
        invariant SweptTo(old(jobs), jobs, i, poll)
        invariant jobCompletedCount == old(jobCompletedCount) + (|old(jobs)| - |jobs|)
        decreases |jobs| + 1 - i
      {
        var job := jobs[i];
        ghost var before, k := jobs, i;
        i := i + 1;
        var stateName := poll(job.trialId);
        if IsTerminal(stateName) {
          jobCompletedCount := jobCompletedCount + 1;
          // `self.jobs.remove(job)`: the trial ids are distinct, so the job sits at index i - 1.
          jobs := jobs[..i - 1] + jobs[i..];
          SweptToRemove(old(jobs), before, k, poll);
          continue;
        }
        SweptToKeep(old(jobs), before, k, poll);
        // Recording the state name in the log buffer only decides what is logged.
      }
      assert jobs[..|jobs|] == jobs && jobs[|jobs|..] == [];
      assert jobs == Sweep(old(jobs), poll);
      SweepPreservesDistinct(old(jobs), poll);
    }

    /**
     * `run_in_main_loop`: read the counts, admit new trials, stop when the
     * budget is finished; otherwise track every ready trial, poll the jobs and
     * go on until as many jobs have completed as the budget asks for.
     * `tracked` is the job list between discovery and polling.
     */
    method RunInMainLoop(poll: int -> JobState) returns (proceed: bool, ghost tracked: seq<Job>)
      requires Valid()
      modifies this, optimizer, storage
      ensures Valid()
      ensures var calls := OptimizerCalls(old(allParametersGenerated), old(trialNumber), old(numWorkers),
                                          old(storage.NumReady()), old(storage.NumRunning()), old(storage.NumFinished()));
        && optimizer.trialId == old(optimizer.trialId) + calls
        && storage.ledger == Registered(old(storage.ledger), old(optimizer.trialId), calls, optimizer.sample)
      ensures numWorkers == old(numWorkers) && trialNumber == old(trialNumber) && startTrialId == old(startTrialId)
      ensures bufferKeys == old(bufferKeys) && allParametersGenerated == old(allParametersGenerated)
      ensures old(storage.NumFinished()) >= configTrialNumber ==>
        && !proceed && jobs == old(jobs) && jobCompletedCount == old(jobCompletedCount)
        && snapshots == old(snapshots)
      ensures old(storage.NumFinished()) < configTrialNumber ==> DiscoveredAndPolled(old(jobs), old(snapshots), old(GetState()), poll, proceed, tracked)
    {
      tracked := jobs;
      var numReady, numRunning, numFinished := storage.NumReady(), storage.NumRunning(), storage.NumFinished();
      SearchHyperparameters(numReady, numRunning, numFinished);
      if numFinished >= configTrialNumber {
        return false, tracked;
      }
      proceed, tracked := DiscoverAndPoll(poll);
    }

    /**
     * What the part of `run_in_main_loop` after admission leaves, from jobs
     * `jobs0`, saved states `snaps0` and scheduler snapshot `st`: `tracked`
     * extends `jobs0` by ready trials, with `st` saved under each new id; the
     * jobs are what polling kept of it, the completed count grew by what it
     * dropped, and `proceed` says the count is not yet the budget.
     */
    ghost predicate DiscoveredAndPolled(jobs0: seq<Job>, snaps0: map<int, Snapshot>, st: Snapshot,
                                        poll: int -> JobState, proceed: bool, tracked: seq<Job>)
      reads this, storage
    {
      && |tracked| >= |jobs0| && tracked[..|jobs0|] == jobs0 && DistinctIds(tracked)
      && (forall id :: id in IdsIn(storage.ledger.states, Ready) ==> id in TrialIds(tracked))
      && (forall k :: |jobs0| <= k < |tracked| ==> tracked[k].trialId in IdsIn(storage.ledger.states, Ready))
      && SnapshotsAdded(snaps0, snapshots, tracked[|jobs0|..], st)
      && jobs == Sweep(tracked, poll)
      && jobCompletedCount == st.jobCompletedCount + (|tracked| - |jobs|)
      && (proceed <==> jobCompletedCount != trialNumber)
      && (forall id :: id in IdsIn(storage.ledger.states, Ready) && !IsTerminal(poll(id)) ==> id in TrialIds(jobs))
      && (forall k :: 0 <= k < |jobs| ==> jobs[k] in jobs0 || jobs[k].trialId in IdsIn(storage.ledger.states, Ready))
    }

    /**
     * `run_in_main_loop` after admission: track every ready trial, poll the
     * jobs, and go on unless the completed count has reached the budget.
     */
    method DiscoverAndPoll(poll: int -> JobState) returns (proceed: bool, ghost tracked: seq<Job>)
      requires Valid()
      modifies this`jobs, this`snapshots, this`jobCompletedCount
      ensures Valid()
      ensures DiscoveredAndPolled(old(jobs), old(snapshots), old(GetState()), poll, proceed, tracked)
    {
      TrackReadyTrials();
      tracked := jobs;
      PollJobs(poll);
      TrackedStayTracked(tracked, jobs, poll, IdsIn(storage.ledger.states, Ready));
      SweepKeeps(tracked, poll);
      forall k | 0 <= k < |jobs|
        ensures jobs[k] in old(jobs) || jobs[k].trialId in IdsIn(storage.ledger.states, Ready)
      {
        var m :| 0 <= m < |tracked| && tracked[m] == jobs[k];
        if m < |old(jobs)| {
          assert tracked[..|old(jobs)|][m] == jobs[k];
        }
      }
      proceed := trialNumber != jobCompletedCount;
    }

    /** With the flag false, `all_parameters_processed` never holds, whatever the counts. */
    lemma ProcessedGateNeverCloses(numReady: int, numRunning: int)
      requires Valid()
      ensures !AllParametersProcessed(allParametersGenerated, numReady, numRunning)
    {
    }

    /**
     * `resume`: with a resume id above 0, restore the counters and flags saved
     * at that id (the jobs and the optimizer are not part of a snapshot), then
     * take the budget from the configuration again.
     */
    method Resume() returns (restored: bool)
      requires Valid()
      modifies this
      ensures Valid()
      ensures restored <==> configResume.Some? && configResume.value > 0 && configResume.value in snapshots
      ensures restored ==>
        var s := snapshots[configResume.value];
        && numWorkers == s.numWorkers && startTrialId == s.startTrialId && bufferKeys == s.bufferKeys
        && allParametersGenerated == s.allParametersGenerated && jobCompletedCount == s.jobCompletedCount
        && trialNumber == configTrialNumber
      ensures restored ==> GetState() == snapshots[configResume.value].(trialNumber := configTrialNumber)
      ensures !restored ==> GetState() == old(GetState())
      ensures jobs == old(jobs) && snapshots == old(snapshots)
    {
      restored := false;
      if configResume.Some? && configResume.value > 0 && configResume.value in snapshots {
        var s := snapshots[configResume.value];
        numWorkers, trialNumber, startTrialId := s.numWorkers, s.trialNumber, s.startTrialId;
        bufferKeys, allParametersGenerated, jobCompletedCount := s.bufferKeys, s.allParametersGenerated, s.jobCompletedCount;
        trialNumber := configTrialNumber;
        restored := true;
      }
    }
  }
}

=== FILE: study.dfy ===
/**
 * `Study`: drives trials one at a time through a user's objective function,
 * resumes from a checkpoint and collects the best trials. The objective
 * function is a parameter: it maps a parameter set to what it returned or to
 * the traceback of what it raised.
 */
module Studies {
  import opened Wrappers
  import opened TrialStore
  import opened Optimizers
  import opened Admission

  /** A value the objective function returned: one number or a list of them. */
  datatype Objective = Scalar(y: real) | Vector(ys: seq<real>)

  /** The text of a formatted traceback, which is never empty. */
  type Traceback = s: string | |s| > 0 witness "Traceback"

  /** What calling the objective function on a parameter set did. */
  datatype Outcome = Value(objective: Objective) | Raised(traceback: Traceback)

  /** What `get_hp_dict` gives for one trial. */
  datatype HpRecord = HpRecord(
    trialId: int,
    parameters: Option<Params>,
    result: Option<seq<ObjectiveItem>>,
    error: Option<string>)

  function HpDict(l: Ledger, trialId: int): HpRecord
  {
    HpRecord(
      trialId,
      if trialId in l.params then Some(l.params[trialId]) else None,
      if trialId in l.objectives then Some(l.objectives[trialId]) else None,
      if trialId in l.errors then Some(l.errors[trialId]) else None)
  }

  /**
   * `get_resume_trial_id`: no resume when nothing has finished or storage has no
   * resume candidate; an error when that candidate or the finished count is the
   * whole budget; otherwise the candidate, where a candidate of 0 stands for the
   * last finished trial.
   */
  function ResumeTrialId(firstResumeId: Option<int>, numFinished: int, trialNumber: int): (r: Result<Option<int>>)
    ensures r == Ok(None) <==> numFinished == 0 || firstResumeId.None?
    ensures r.Err? <==>
      numFinished != 0 && firstResumeId.Some? && (firstResumeId.value == trialNumber || numFinished == trialNumber)
    ensures r.Ok? && r.value.Some? ==>
      r.value.value == if firstResumeId.value == 0 then numFinished - 1 else firstResumeId.value
  {
    if numFinished == 0 || firstResumeId.None? then Ok(None)
    else if firstResumeId.value == trialNumber || numFinished == trialNumber then
      Err("trial is already finished")
    else if firstResumeId.value == 0 then Ok(Some(numFinished - 1))
    else Ok(firstResumeId)
  }

  /** With counts and candidate inside the budget, a resume id is always a trial id below the budget. */
  lemma ResumeTrialIdWithinBudget(firstResumeId: Option<int>, numFinished: int, trialNumber: int)
    requires 0 <= numFinished <= trialNumber
    requires firstResumeId.Some? ==> 0 <= firstResumeId.value <= trialNumber
    ensures var r := ResumeTrialId(firstResumeId, numFinished, trialNumber);
      r.Ok? && r.value.Some? ==> 0 <= r.value.value < trialNumber
  {
  }

  /**
   * `execute`: the parameters, the objective (`None` when the function raised)
   * and the error text, which is empty exactly when the function did not raise.
   */
  function Execute(func: Params -> Outcome, xs: Params): (r: (Params, Option<Objective>, string))
    ensures r.0 == xs
    ensures r.2 == "" <==> func(xs).Value?
    ensures r.1.None? <==> func(xs).Raised?
    ensures func(xs).Value? ==> r.1 == Some(func(xs).objective)
    ensures func(xs).Raised? ==> r.2 == func(xs).traceback
  {
    match func(xs)
    case Value(y) => (xs, Some(y), "")
    case Raised(tb) => (xs, None, tb)
  }

  /** The reported objective list: a returned list as it is, anything else (`None` too) as a list of one. */
  function ObjectiveList(y: Option<Objective>): (ys: seq<ObjectiveItem>)
    ensures y.Some? && y.value.Vector? ==>
      |ys| == |y.value.ys| && forall i :: 0 <= i < |ys| ==> ys[i] == Some(y.value.ys[i])
    ensures y.Some? && y.value.Scalar? ==> ys == [Some(y.value.y)]
    ensures y.None? ==> ys == [None]
  {
    match y
    case None => [None]
    case Some(Scalar(v)) => [Some(v)]
    case Some(Vector(vs)) => seq(|vs|, i requires 0 <= i < |vs| => Some(vs[i]))
  }

  /**
   * The ledger after trial `id` ran with parameters `xs`: finished whether or not
   * the function raised, with its parameters, objective list and error text.
   */
  function AfterRun(l: Ledger, id: int, xs: Params, func: Params -> Outcome): Ledger
  {
    var r := Execute(func, xs);
    Ledger(l.states[id := Finished], l.params[id := xs],
           l.objectives[id := ObjectiveList(r.1)], l.errors[id := r.2])
  }

  /** The record `evaluate` reports for a trial is what running it stored. */
  lemma HpDictAfterRun(l: Ledger, id: int, xs: Params, func: Params -> Outcome)
    ensures var r := Execute(func, xs);
      HpDict(AfterRun(l, id, xs, func), id) == HpRecord(id, Some(xs), Some(ObjectiveList(r.1)), Some(r.2))
  {
  }

  /** After a resume at checkpoint `c`, a trial beyond it is reported with no parameters, result or error. */
  lemma HpDictAfterResume(l: Ledger, c: int, id: int)
    requires id > c
    ensures HpDict(DataDeleted(RolledBack(l, c), c), id) == HpRecord(id, None, None, None)
  {
  }

  class Study {
    const storage: Storage
    const optimizer: Optimizer
    /** `config.optimize.trial_number`. */
    const trialNumber: int
    /** `config.resume`. */
    var configResume: Option<int>

    constructor (storage: Storage, optimizer: Optimizer, trialNumber: int, resume: Option<int>)
      ensures this.storage == storage && this.optimizer == optimizer
      ensures this.trialNumber == trialNumber && configResume == resume
    {
      this.storage := storage;
      this.optimizer := optimizer;
      this.trialNumber := trialNumber;
      configResume := resume;
    }

    /**
     * `resume`: roll back to ready, then delete the data after the checkpoint,
     * then resume the optimizer. `afterRollback` is the ledger between the two
     * storage steps: in this order no ledger ever shows a finished trial whose
     * parameters are gone.
     */
    method Resume(trialId: int) returns (ghost afterRollback: Ledger)
      modifies storage, optimizer
      ensures afterRollback == RolledBack(old(storage.ledger), trialId)
      ensures storage.ledger == DataDeleted(afterRollback, trialId)
      ensures FinishedHaveParams(old(storage.ledger)) ==>
        FinishedHaveParams(afterRollback) && FinishedHaveParams(storage.ledger)
      ensures optimizer.trialId ==
        if configResume.Some? && configResume.value > 0 then configResume.value else old(optimizer.trialId)
    {
      storage.RollbackToReady(trialId);
      afterRollback := storage.ledger;
      storage.DeleteTrialDataAfterThis(trialId);
      if FinishedHaveParams(old(storage.ledger)) {
        RollbackThenDeleteKeepsFinishedParams(old(storage.ledger), trialId);
      }
      optimizer.Resume(configResume);
    }

    /**
     * `execute_and_report`: without parameters for the trial nothing happens.
     * Otherwise the trial is running while the function runs (`during`), then
     * finished, whether or not the function raised, with its objective list
     * and error text stored.
     */
    method ExecuteAndReport(trialId: int, func: Params -> Outcome) returns (ghost during: Ledger)
      modifies storage
      ensures trialId !in old(storage.ledger.params) ==> storage.ledger == old(storage.ledger)
      ensures trialId in old(storage.ledger.params) ==>
        var r := Execute(func, old(storage.ledger.params)[trialId]);
        && during == WithState(old(storage.ledger), trialId, Running)
        && storage.ledger.states == old(storage.ledger.states)[trialId := Finished]
        && storage.ledger.params == old(storage.ledger.params)
        && storage.ledger.objectives == old(storage.ledger.objectives)[trialId := ObjectiveList(r.1)]
        && storage.ledger.errors == old(storage.ledger.errors)[trialId := r.2]
    {
      during := storage.ledger;
      var xs := storage.ParamsOf(trialId);
      if xs.None? {
        return;
      }
      storage.SetState(trialId, Running);
      during := storage.ledger;
      var (_, y, err) := Execute(func, xs.value);
      storage.SetState(trialId, Finished);
      var ys := ObjectiveList(y);
      storage.WriteResult(trialId, ys, err);
    }

    /** Lines 108-109 of `optimize`: register a trial at the optimizer's trial id, then execute and report it. */
    method RunNextTrial(func: Params -> Outcome) returns (trialId: int)
      modifies storage, optimizer
      ensures trialId == old(optimizer.trialId) && optimizer.trialId == trialId + 1
      ensures storage.ledger == AfterRun(old(storage.ledger), trialId, optimizer.sample(trialId), func)
    {
      trialId := optimizer.trialId;
      optimizer.RunOptimizer(storage);
      ghost var _ := ExecuteAndReport(trialId, func);
      assert storage.ledger.states == old(storage.ledger.states)[trialId := Finished];
    }

    /**
     * One pass of `optimize`'s loop up to its stop test: while no trial has run,
     * resume the optimizer at its own trial id when that id is above 0; then
     * skip a finished trial, wait on a running one, or run the trial. Returns
     * the id it ran.
     */
    method OptimizeStep(func: Params -> Outcome, nCount: int,
                        ghost start: int, ghost states0: map<int, TrialState>, ghost executed: seq<int>)
      returns (ran: Option<int>)
      requires Walked(start, states0, executed, optimizer.trialId, storage.ledger.states)
      modifies this, storage, optimizer
      ensures old(storage.StateOf(optimizer.trialId)) == Some(Finished) ==>
        ran.None? && optimizer.trialId == old(optimizer.trialId) + 1 && storage.ledger == old(storage.ledger)
      ensures old(storage.StateOf(optimizer.trialId)) == Some(Running) ==>
        ran.None? && optimizer.trialId == old(optimizer.trialId) && storage.ledger == old(storage.ledger)
      ensures old(storage.StateOf(optimizer.trialId)) != Some(Finished) && old(storage.StateOf(optimizer.trialId)) != Some(Running) ==>
        && ran == Some(old(optimizer.trialId)) && optimizer.trialId == old(optimizer.trialId) + 1
        && storage.ledger == AfterRun(old(storage.ledger), ran.value, optimizer.sample(ran.value), func)
      ensures configResume == if nCount == 0 && old(optimizer.trialId) > 0 then Some(old(optimizer.trialId)) else old(configResume)
      ensures optimizer.trialId == old(optimizer.trialId) + 1 || RunningIn(states0, old(optimizer.trialId))
      ensures RunningIn(states0, old(optimizer.trialId)) ==>
        ran.None? && optimizer.trialId == old(optimizer.trialId) && storage.ledger == old(storage.ledger)
      ensures ran.None? ==> storage.ledger == old(storage.ledger)
      ensures ran.Some? ==>
        && ran.value == old(optimizer.trialId) && optimizer.trialId == ran.value + 1
        && storage.ledger == AfterRun(old(storage.ledger), ran.value, optimizer.sample(ran.value), func)
      ensures ran.None? ==> Walked(start, states0, executed, optimizer.trialId, storage.ledger.states)
      ensures ran.Some? ==> Walked(start, states0, executed + [ran.value], optimizer.trialId, storage.ledger.states)
    {
      var trialId := optimizer.trialId;
      if nCount == 0 && trialId > 0 {
        configResume := Some(optimizer.trialId);
        optimizer.Resume(configResume);
      }
      var state := storage.StateOf(trialId);
      if state == Some(Finished) {
        WalkedSkip(start, states0, executed, trialId, storage.ledger.states);
        optimizer.Increment();
        return None;
      } else if state == Some(Running) {
        return None;
      }
      WalkedRun(start, states0, executed, trialId, storage.ledger.states);
      trialId := RunNextTrial(func);
      return Some(trialId);
    }

    /**
     * `optimize`, for at most `fuel` passes of its `while True` loop (a trial
     * found running makes it spin). `executed` lists the trial ids run, in
     * order; `stopped` says the loop ended by its own stop condition.
     */
    method Optimize(func: Params -> Outcome, nTrials: Option<int>, fuel: nat)
      returns (executed: seq<int>, stopped: bool)
      modifies this, storage, optimizer
      ensures Increasing(executed)
      ensures forall k :: 0 <= k < |executed| ==>
        old(optimizer.trialId) <= executed[k] < optimizer.trialId
      ensures forall k :: 0 <= k < |executed| ==> !FinishedIn(old(storage.ledger.states), executed[k])
      ensures forall k :: 0 <= k < |executed| ==> FinishedIn(storage.ledger.states, executed[k])
      ensures forall id :: old(optimizer.trialId) <= id < optimizer.trialId && id !in executed ==>
        FinishedIn(old(storage.ledger.states), id)
      ensures nTrials.Some? ==> |executed| <= Max(1, nTrials.value)
      ensures nTrials.Some? && stopped ==> |executed| == Max(1, nTrials.value)
      ensures nTrials.None? ==> forall k :: 0 <= k < |executed| - 1 ==> executed[k] < trialNumber - 1
      ensures nTrials.None? && stopped ==> |executed| > 0 && executed[|executed| - 1] >= trialNumber - 1
      ensures stopped ==> |executed| > 0 && optimizer.trialId == executed[|executed| - 1] + 1
      ensures nTrials.Some? && |executed| == Max(1, nTrials.value) ==> stopped
      ensures nTrials.None? && |executed| > 0 && executed[|executed| - 1] >= trialNumber - 1 ==> stopped
      ensures |executed| > 0 && executed[0] > 0 ==> configResume == Some(executed[0])
      ensures forall k :: 0 <= k < |executed| ==> !RunningIn(old(storage.ledger.states), executed[k])
      ensures Reported(old(storage.ledger), storage.ledger, executed, func, optimizer.sample)
      ensures (forall id :: id >= old(optimizer.trialId) ==> !RunningIn(old(storage.ledger.states), id)) ==>
        stopped || optimizer.trialId == old(optimizer.trialId) + fuel
      ensures stopped || optimizer.trialId == old(optimizer.trialId) + fuel ||
        RunningIn(old(storage.ledger.states), optimizer.trialId)
      ensures configResume == old(configResume) ||
        (configResume.Some? && 0 < configResume.value && old(optimizer.trialId) <= configResume.value <= optimizer.trialId)
    {
      executed, stopped := OptimizeLoop(func, nTrials, fuel, optimizer.trialId, storage.ledger);
    }

    /**
     * The loop of `optimize`, from trial id `start` and ledger `ledger0`: the
     * walk, the report and the stop state it leaves; unless it stopped, it has
     * advanced one id per pass or is waiting on a running trial; and a resume
     * id it sets lies in the span walked.
     */
    method OptimizeLoop(func: Params -> Outcome, nTrials: Option<int>, fuel: nat, ghost start: int, ghost ledger0: Ledger)
      returns (executed: seq<int>, stopped: bool)
      requires start == optimizer.trialId && ledger0 == storage.ledger
      modifies this, storage, optimizer
      ensures Walked(start, ledger0.states, executed, optimizer.trialId, storage.ledger.states)
      ensures Reported(ledger0, storage.ledger, executed, func, optimizer.sample)
      ensures StopState(nTrials, trialNumber, configResume, optimizer.trialId, executed, stopped)
      ensures stopped || optimizer.trialId == start + fuel || RunningIn(ledger0.states, optimizer.trialId)
      ensures configResume == old(configResume) ||
        (configResume.Some? && 0 < configResume.value && start <= configResume.value <= optimizer.trialId)
    {
      ghost var states0 := ledger0.states;
      executed, stopped := [], false;
      var steps := fuel;
      while steps > 0 && !stopped
        invariant Walked(start, states0, executed, optimizer.trialId, storage.ledger.states)
        invariant Reported(ledger0, storage.ledger, executed, func, optimizer.sample)
        invariant StopState(nTrials, trialNumber, configResume, optimizer.trialId, executed, stopped)
        invariant stopped || optimizer.trialId == start + (fuel - steps) || RunningIn(states0, optimizer.trialId)
        invariant configResume == old(configResume) ||
          (configResume.Some? && 0 < configResume.value && start <= configResume.value <= optimizer.trialId)
        decreases steps
      {
        steps := steps - 1;
        executed, stopped := OptimizeRound(func, nTrials, start, states0, ledger0, executed);
      }
    }

    /**
     * One pass of `optimize`'s loop with its stop test: `executed` grows by the
     * trial the pass ran, if any, and `n_count` is its length.
     */
    method OptimizeRound(func: Params -> Outcome, nTrials: Option<int>,
                         ghost start: int, ghost states0: map<int, TrialState>, ghost ledger0: Ledger,
                         executed: seq<int>)
      returns (executed': seq<int>, stopped: bool)
      requires Walked(start, states0, executed, optimizer.trialId, storage.ledger.states)
      requires Reported(ledger0, storage.ledger, executed, func, optimizer.sample)
      requires StopState(nTrials, trialNumber, configResume, optimizer.trialId, executed, false)
      modifies this, storage, optimizer
      ensures Walked(start, states0, executed', optimizer.trialId, storage.ledger.states)
      ensures Reported(ledger0, storage.ledger, executed', func, optimizer.sample)
      ensures StopState(nTrials, trialNumber, configResume, optimizer.trialId, executed', stopped)
      ensures executed' == executed || executed' == executed + [old(optimizer.trialId)]
      ensures (forall id :: id >= start ==> !RunningIn(states0, id)) ==> optimizer.trialId == old(optimizer.trialId) + 1
      ensures optimizer.trialId == old(optimizer.trialId) + 1 ||
        (optimizer.trialId == old(optimizer.trialId) && RunningIn(states0, optimizer.trialId))
      ensures RunningIn(states0, old(optimizer.trialId)) ==>
        optimizer.trialId == old(optimizer.trialId) && executed' == executed && !stopped
      ensures configResume == old(configResume) ||
        (configResume.Some? && 0 < configResume.value && configResume.value == old(optimizer.trialId))
    {
      ghost var before := storage.ledger;
      var ran := OptimizeStep(func, |executed|, start, states0, executed);
      executed', stopped := executed, false;
      if ran.Some? {
        var trialId := ran.value;
        ReportedRun(ledger0, before, executed, trialId, func, optimizer.sample);
        executed' := executed + [trialId];
        if nTrials.None? {
          stopped := trialId >= trialNumber - 1;
        } else {
          stopped := |executed'| >= nTrials.value;
        }
        StopStateRun(nTrials, trialNumber, old(configResume), configResume, executed, trialId, stopped);
      }
    }

    /**
     * `evaluate`: `None` when storage found no best trial, otherwise the record
     * of each best trial, in the order storage gave them.
     */
    method Evaluate(bestTrialIds: Option<seq<int>>) returns (hpResults: Option<seq<HpRecord>>)
      ensures bestTrialIds.None? <==> hpResults.None?
      ensures bestTrialIds.Some? ==>
        && |hpResults.value| == |bestTrialIds.value|
        && forall i :: 0 <= i < |bestTrialIds.value| ==>
             hpResults.value[i] == HpDict(storage.ledger, bestTrialIds.value[i])
    {
      if bestTrialIds.None? {
        return None;
      }
      var ids := bestTrialIds.value;
      var results: seq<HpRecord> := [];
      for i := 0 to |ids|
        invariant |results| == i
        invariant forall k :: 0 <= k < i ==> results[k] == HpDict(storage.ledger, ids[k])
      {
        results := results + [HpDict(storage.ledger, ids[i])];
      }
      return Some(results);
    }
  }

  predicate FinishedIn(states: map<int, TrialState>, id: int)
  {
    id in states && states[id] == Finished
  }

  /** Trial `id` has the same records in `l` as in `l0`. */
  predicate SameRecord(l0: Ledger, l: Ledger, id: int)
  {
    && (id in l.states <==> id in l0.states) && (id in l0.states ==> l.states[id] == l0.states[id])
    && (id in l.params <==> id in l0.params) && (id in l0.params ==> l.params[id] == l0.params[id])
    && (id in l.objectives <==> id in l0.objectives) && (id in l0.objectives ==> l.objectives[id] == l0.objectives[id])
    && (id in l.errors <==> id in l0.errors) && (id in l0.errors ==> l.errors[id] == l0.errors[id])
  }

  /** Trial `id` ran with parameters `xs`: finished, with those parameters and what running `func` on them reported. */
  predicate RanWith(l: Ledger, id: int, xs: Params, func: Params -> Outcome)
  {
    var r := Execute(func, xs);
    && id in l.states && l.states[id] == Finished
    && id in l.params && l.params[id] == xs
    && id in l.objectives && l.objectives[id] == ObjectiveList(r.1)
    && id in l.errors && l.errors[id] == r.2
  }

  /**
   * Going from `l0` to `l`, the trials in `executed` were each registered with
   * their sampled parameters, executed and reported; every other trial's records
   * are as they were.
   */
  ghost predicate Reported(l0: Ledger, l: Ledger, executed: seq<int>, func: Params -> Outcome, sample: int -> Params)
  {
    && (forall id :: id !in executed ==> SameRecord(l0, l, id))
    && (forall k :: 0 <= k < |executed| ==> RanWith(l, executed[k], sample(executed[k]), func))
  }

  /** Running one more trial, at an id not run before, extends the report by that id. */
  lemma ReportedRun(l0: Ledger, l: Ledger, executed: seq<int>, id: int, func: Params -> Outcome, sample: int -> Params)
    requires Reported(l0, l, executed, func, sample) && id !in executed
    ensures Reported(l0, AfterRun(l, id, sample(id), func), executed + [id], func, sample)
  {
    var l' := AfterRun(l, id, sample(id), func);
    var executed' := executed + [id];
    forall id' | id' !in executed' ensures SameRecord(l0, l', id') {
      assert id' !in executed && id' != id;
    }
    forall k | 0 <= k < |executed'| ensures RanWith(l', executed'[k], sample(executed'[k]), func) {
      if k < |executed| {
        assert executed'[k] == executed[k] && executed[k] != id;
      }
    }
  }

  /**
   * The stop test of `optimize` after running `executed` (`stopped` says it
   * fired), with the optimizer at `pos` and `resume` the configured resume id:
   * the test fires once `n_trials` trials have run (at least one) or, without
   * `n_trials`, once a run trial is the last id of the budget; it then leaves
   * the optimizer just past the last run trial; and a resumed run records the
   * first trial it ran as the resume id.
   */
  predicate StopState(nTrials: Option<int>, trialNumber: int, resume: Option<int>, pos: int,
                      executed: seq<int>, stopped: bool)
  {
    && (|executed| > 0 && executed[0] > 0 ==> resume == Some(executed[0]))
    && (nTrials.Some? ==> |executed| <= Max(1, nTrials.value))
    && (nTrials.Some? ==> (stopped <==> |executed| == Max(1, nTrials.value)))
    && (nTrials.None? ==> forall k :: 0 <= k < |executed| - 1 ==> executed[k] < trialNumber - 1)
    && (nTrials.None? ==> (stopped <==> |executed| > 0 && executed[|executed| - 1] >= trialNumber - 1))
    && (stopped ==> |executed| > 0 && pos == executed[|executed| - 1] + 1)
  }

  /**
   * Running trial `id` on a pass that sets the resume id as `optimize` does
   * (to the trial id on a pass before any trial ran) and applying the stop test
   * keeps the stop state.
   */
  lemma StopStateRun(nTrials: Option<int>, trialNumber: int, resume0: Option<int>, resume: Option<int>,
                     executed: seq<int>, id: int, stopped: bool)
    requires StopState(nTrials, trialNumber, resume0, id, executed, false)
    requires resume == if executed == [] && id > 0 then Some(id) else resume0
    requires stopped == if nTrials.None? then id >= trialNumber - 1 else |executed| + 1 >= nTrials.value
    ensures StopState(nTrials, trialNumber, resume, id + 1, executed + [id], stopped)
  {
    var executed' := executed + [id];
    assert executed'[|executed'| - 1] == id;
    if nTrials.None? {
      forall k | 0 <= k < |executed'| - 1 ensures executed'[k] < trialNumber - 1 {
        assert executed'[k] == executed[k];
      }
    }
  }

  predicate RunningIn(states: map<int, TrialState>, id: int)
  {
    id in states && states[id] == Running
  }

  predicate Increasing(ids: seq<int>)
  {
    forall i, j :: 0 <= i < j < |ids| ==> ids[i] < ids[j]
  }

  /** From `pos` on, `states` holds the same records as `states0`. */
  ghost predicate SameFrom(states0: map<int, TrialState>, states: map<int, TrialState>, pos: int)
  {
    forall id :: id >= pos ==>
      (id in states <==> id in states0) && (id in states0 ==> states[id] == states0[id])
  }

  /**
   * Where `optimize` stands after walking trial ids `start .. pos-1`: the ids it
   * executed rise, were neither finished nor running before and are finished
   * now; every other id it
   * passed was already finished; from `pos` on nothing has changed.
   */
  ghost predicate Walked(start: int, states0: map<int, TrialState>, executed: seq<int>, pos: int,
                         states: map<int, TrialState>)
  {
    && start <= pos
    && Increasing(executed)
    && (forall k :: 0 <= k < |executed| ==> start <= executed[k] < pos)
    && (forall k :: 0 <= k < |executed| ==> !FinishedIn(states0, executed[k]) && FinishedIn(states, executed[k]))
    && (forall k :: 0 <= k < |executed| ==> !RunningIn(states0, executed[k]))
    && (forall id :: start <= id < pos && id !in executed ==> FinishedIn(states0, id))
    && SameFrom(states0, states, pos)
  }

  /** Passing over a finished id. */
  lemma WalkedSkip(start: int, states0: map<int, TrialState>, executed: seq<int>, pos: int,
                   states: map<int, TrialState>)
    requires Walked(start, states0, executed, pos, states) && FinishedIn(states, pos)
    ensures Walked(start, states0, executed, pos + 1, states)
  {
  }

  /** Executing the id at `pos`, which leaves it finished. */
  lemma WalkedRun(start: int, states0: map<int, TrialState>, executed: seq<int>, pos: int,
                  states: map<int, TrialState>)
    requires Walked(start, states0, executed, pos, states) && !FinishedIn(states, pos) && !RunningIn(states, pos)
    ensures Walked(start, states0, executed + [pos], pos + 1, states[pos := Finished])
  {
    var executed', states' := executed + [pos], states[pos := Finished];
    forall i, j | 0 <= i < j < |executed'| ensures executed'[i] < executed'[j] {
      if j < |executed| {
        assert executed'[i] == executed[i] && executed'[j] == executed[j];
      } else {
        assert executed'[i] == executed[i];
      }
    }
    forall k | 0 <= k < |executed'|
      ensures start <= executed'[k] < pos + 1
      ensures !FinishedIn(states0, executed'[k]) && FinishedIn(states', executed'[k])
      ensures !RunningIn(states0, executed'[k])
    {
      if k < |executed| {
        assert executed'[k] == executed[k];
      }
    }
    forall id | start <= id < pos + 1 && id !in executed'
      ensures FinishedIn(states0, id)
    {
      assert id != pos;
      assert id !in executed;
    }
    assert SameFrom(states0, states', pos + 1);
  }

}

=== FILE: wrappers.dfy ===
/** Option and Result, the shapes used for Python's `None` returns and raised exceptions. */
module Wrappers {

  datatype Option<+T> = None | Some(value: T)

  /** A computation that either produced a value or raised an error described by a message. */
  datatype Result<+T> = Ok(value: T) | Err(message: string)
}
